=== FILE: README.md ===
# Research-assistant chat frontend: session store, chat flow and upload flow

This project models the client-side state of a browser chat front end for
research papers. A user drops a PDF. The page uploads it and asks the
backend to analyse it. It then opens a chat session for the document, and
the user asks questions about it in that session.

The model covers three parts of the frontend:

- **Session store** (`frontend/src/App.jsx`). An ordered list of sessions,
  newest first. Each session has an `id`, a `pdfId`, a `fileName` and its
  `messages`. Beside the list sits a nullable `activeSessionId`. The
  handlers create a session, append a message to the active session,
  delete a session, switch sessions and start a new chat. Each new value is
  computed with `map`, `filter` and `find`.
  - `sessions.dfy` holds those list operations as recursive functions.
  - `app_store.dfy` holds each handler as a pure transition on a `Store`
    value, the store invariant and its preservation lemmas, and the class
    `App`. The class holds the two state fields, and its methods overwrite
    them as the transitions say.
- **Conversation flow** (`frontend/src/components/ChatInterface.jsx`,
  `chat.dfy`). The class `ChatInterface` holds the input buffer `query`,
  the `loading` flag and a trace of what leaves the component. The trace
  records each `onSendMessage` call with its message, and each
  `sendQuery` call together with the buffer and the flag at the moment
  of the call.
- **Upload flow** (`frontend/src/components/FileUpload.jsx`, `upload.dfy`).
  The class `FileUpload` holds `isDragging`, `isUploading` and a trace of
  the two remote calls and the success callback.

`wiring.dfy` connects the parts as the top-level component does. The
upload panel's callback is `handleUploadSuccess`. The chat panel gets the
active session's `pdfId` and sends its messages through
`handleSendMessage`. It proves the whole path from an empty page to a
three-message transcript.

Inputs from outside the frontend are parameters:

- The clock reading that becomes a new session id (`Date.now().toString()`)
  is the `now` argument.
- Each remote call (`uploadPdf`, `analyzeSections`, `sendQuery`) is given
  as its settled outcome: success with data, or failure.
- The text `JSON.stringify(data)` arrives as a field of the response body.

The store invariant `Valid` says two things. Session ids are pairwise
distinct. A set active pointer names a listed session. The invariant
holds over any run of actions in which every new session's clock reading
is not already in use, and every switch names a listed session (the
sidebar only offers listed ones). Nothing in the source guarantees the
first condition. `SameClockReadingAppendsToBoth` shows what happens
without it: two sessions share an id, and a single send appends to both.

Behaviour of the code that the model keeps as written:

- Delete removes every session with the given id, not just one.
- A missing file is rejected the same way as a non-PDF file.
- The question sent to the backend is the trimmed text.
- Messages go to whichever session is active. There is no explicit
  session argument. A message for a deleted session is therefore modelled
  as `map` finding no match (`AppendAfterDeleteIsNoop`), or as a send
  after the pointer was cleared (`DeleteActiveThenSendIsNoop`).

## Model

| member | source | states |
|---|---|---|
| `Text.Trim` | frontend/src/components/ChatInterface.jsx:21-23 | `trim` gives the empty string exactly when the input is all whitespace; otherwise the result starts and ends with a non-whitespace character and is no longer than the input |
| `Text.TrimIsWindow` | frontend/src/components/ChatInterface.jsx:23 | `trim` returns the input with an all-whitespace prefix and an all-whitespace suffix removed and nothing else: a contiguous part of the input with only whitespace before and after it |
| `Text.TrimStart` | frontend/src/components/ChatInterface.jsx:23 | the leading part removed is all whitespace, and the kept suffix does not start with whitespace |
| `Text.TrimEnd` | frontend/src/components/ChatInterface.jsx:23 | the trailing part removed is all whitespace, and the kept prefix does not end with whitespace |
| `Sessions.Greeting` | frontend/src/App.jsx:19 | the greeting text contains the file name as a substring |
| `Sessions.NewSession` | frontend/src/App.jsx:15-20 | a new session carries the given id, `pdfId` and `fileName`, and its transcript is exactly one `ai` message whose text contains the file name |
| `Sessions.AppendWhere` | frontend/src/App.jsx:29-37 | `map` keeps the length and positions; every session with the id gets the message at the end of its transcript; every other session is unchanged |
| `Sessions.AppendWhereKeepsIds` | frontend/src/App.jsx:29-37 | appending changes no id, so distinct ids stay distinct and the set of present ids is the same |
| `Sessions.AppendWhereAbsent` | frontend/src/App.jsx:29-37 | when no session has the id, `map` finds no match and the list is unchanged |
| `Sessions.RemoveId` | frontend/src/App.jsx:41 | `filter` keeps exactly the sessions with another id, unchanged; no session with the id is left; if none had it, the list is unchanged |
| `Sessions.RemoveIdConcat` | frontend/src/App.jsx:41 | `filter` distributes over concatenation, so the survivors keep their relative order |
| `Sessions.RemoveIdKeepsUnique` | frontend/src/App.jsx:41 | distinct ids stay distinct after a delete |
| `Sessions.RemoveIdCount` | frontend/src/App.jsx:41 | with distinct ids, deleting a present id removes exactly one session and deleting an absent id removes none |
| `Sessions.Find` | frontend/src/App.jsx:12 | `find` finds something exactly when some session has the id, and then returns the first session with that id |
| `Sessions.FindUnique` | frontend/src/App.jsx:12-16 | with distinct ids, `find` returns the one session that has the id |
| `AppStore.ActiveSession` | frontend/src/App.jsx:12 | the active session is found exactly when the pointer is set and names a listed session; the session found is listed, has the active id, and is the first session in list order that has it |
| `AppStore.AfterUpload` | frontend/src/App.jsx:14-24 | create makes the list one longer, puts the new session at index 0 with the old sessions after it in their old order, and sets the pointer to the new id, which `find` then resolves to the new session |
| `AppStore.AfterSend` | frontend/src/App.jsx:26-38 | with a null or empty pointer nothing changes; otherwise only the sessions with the active id gain the message at the end of their transcript; length, order and pointer are unchanged |
| `AppStore.AfterDelete` | frontend/src/App.jsx:40-45 | the new list is the `filter` of the old one, so the survivors are exactly the old sessions with another id, in their old order and number (through `RemoveIdConcat` and `RemoveIdCount`); the pointer becomes null exactly when it named the deleted id and is otherwise unchanged |
| `AppStore.AfterSwitch` | frontend/src/App.jsx:56-57 | switch and new-chat set the pointer and leave the list alone |
| `AppStore.UploadKeepsValid` | frontend/src/App.jsx:14-24 | create with a clock reading not already used as an id keeps the store invariant |
| `AppStore.SendKeepsValid` | frontend/src/App.jsx:26-38 | append keeps the store invariant |
| `AppStore.DeleteKeepsValid` | frontend/src/App.jsx:40-45 | delete keeps the store invariant: ids stay distinct and the pointer, if still set, names a survivor |
| `AppStore.ApplyKeepsValid` | frontend/src/App.jsx:14-57 | every handler, with a fresh clock reading for create and a listed target for switch, keeps the store invariant |
| `AppStore.RunKeepsValid` | frontend/src/App.jsx:8-57 | over any sequence of create, append, delete, switch and new-chat with fresh clock readings, ids stay pairwise distinct and the pointer never dangles |
| `AppStore.ActiveIsUniqueMatch` | frontend/src/App.jsx:12 | in a valid store a set pointer is resolved, and the session `find` returns is the only one with that id |
| `AppStore.SendExtendsActiveOnly` | frontend/src/App.jsx:26-38 | in a valid store with a pointer set, a send extends the active session's transcript by exactly the message and leaves every other session unchanged |
| `AppStore.SendAllAppendsInOrder` | frontend/src/App.jsx:26-38 | successive sends end the active transcript with the sent messages in the order they were sent |
| `AppStore.SendAllKeepsIds` | frontend/src/App.jsx:26-38 | sends never add, remove or reorder sessions, never move the pointer, and change nothing but transcripts |
| `AppStore.AppendAfterDeleteIsNoop` | frontend/src/App.jsx:29-41 | appending to an id after deleting it changes nothing |
| `AppStore.DeleteActiveThenSendIsNoop` | frontend/src/App.jsx:27-44 | deleting the active session clears the pointer, after which a send is a no-op |
| `AppStore.SameClockReadingAppendsToBoth` | frontend/src/App.jsx:16 | two creates with the same clock reading break the invariant, and one send then appends to both sessions |
| `AppStore.App.constructor` | frontend/src/App.jsx:8-9 | the store starts with no sessions and a null pointer |
| `AppStore.App.HandleUploadSuccess` | frontend/src/App.jsx:14-24 | the new state is the create transition of the old one, and the invariant survives when the clock reading is fresh |
| `AppStore.App.HandleSendMessage` | frontend/src/App.jsx:26-38 | the new state is the append transition of the old one, and the invariant survives |
| `AppStore.App.HandleDeleteSession` | frontend/src/App.jsx:40-45 | the new state is the delete transition of the old one, and the invariant survives |
| `AppStore.App.SwitchSession` | frontend/src/App.jsx:56 | the pointer becomes the chosen id; the invariant survives when that id is listed |
| `AppStore.App.NewChat` | frontend/src/App.jsx:57 | the pointer becomes null and the invariant survives |
| `Chat.AnswerText` | frontend/src/components/ChatInterface.jsx:35 | the first truthy of `answer`, then `response`, is taken as it is, and only when both are falsy is the serialised body used; the result is a truthy field or the serialised body, and it is empty only when `answer` and `response` are falsy and the serialised body is empty |
| `Chat.Reply` | frontend/src/components/ChatInterface.jsx:35-42 | the reply is an `error` message exactly when the call failed, and then carries the fixed text; a resolved call gives an `ai` message with the answer text |
| `Chat.ReplyFallback` | frontend/src/components/ChatInterface.jsx:35-42 | the reply is never blank when the call failed or the body serialises to some text, and a truthy `answer` is shown unchanged |
| `Chat.SubmitEnabled` | frontend/src/components/ChatInterface.jsx:122 | submit is enabled exactly when the input has some non-whitespace character and no answer is pending |
| `Chat.ChatInterface.constructor` | frontend/src/components/ChatInterface.jsx:7-8 | the buffer starts empty, not loading, with nothing sent |
| `Chat.ChatInterface.OnInputChange` | frontend/src/components/ChatInterface.jsx:116 | the buffer follows the typed value; nothing else changes |
| `Chat.ChatInterface.HandleSubmit` | frontend/src/components/ChatInterface.jsx:19-46 | a blank input changes nothing; otherwise the trimmed text goes out as a `user` message first; the buffer is cleared and `loading` set before the same text is sent as the question; then exactly one reply message follows; `loading` ends false on both outcomes |
| `Upload.FirstFile` | frontend/src/components/FileUpload.jsx:45-55 | only the first file of the list is handled; an empty list gives no file |
| `Upload.UploadComesFirst` | frontend/src/components/FileUpload.jsx:12-19 | a missing or non-PDF file causes no effect at all; an accepted file is uploaded first, while busy |
| `Upload.AnalyzeFollowsUpload` | frontend/src/components/FileUpload.jsx:16-22 | analysis is requested only right after a successful upload, for the `pdf_id` that upload returned, and while `isUploading` is still set |
| `Upload.CallbackIffBothSucceed` | frontend/src/components/FileUpload.jsx:17-29 | `onUploadSuccess(pdf_id, file.name)` is called once when both calls succeed and never otherwise |
| `Upload.FileUpload.constructor` | frontend/src/components/FileUpload.jsx:6-7 | not dragging, not uploading, nothing called |
| `Upload.FileUpload.HandleFile` | frontend/src/components/FileUpload.jsx:11-33 | the effects are exactly those of `HandledEffects`; `isUploading` is unchanged for a rejected file and false at the end otherwise; the callback count rises by one exactly when both calls succeed |
| `Upload.FileUpload.OnDragOver` | frontend/src/components/FileUpload.jsx:35-38 | the drag highlight turns on; nothing else changes |
| `Upload.FileUpload.OnDragLeave` | frontend/src/components/FileUpload.jsx:40-43 | the drag highlight turns off; nothing else changes |
| `Upload.FileUpload.OnDrop` | frontend/src/components/FileUpload.jsx:45-50 | the highlight turns off and the first dropped file is handled as `handleFile` handles it |
| `Upload.FileUpload.OnInputChange` | frontend/src/components/FileUpload.jsx:52-55 | the first chosen file is handled as `handleFile` handles it |
| `Wiring.UploadThenSendAll` | frontend/src/App.jsx:14-38 | after a create into the empty store and a series of sends, the only session is active and holds the greeting followed by the sent messages |
| `Wiring.TypeAndSubmit` | frontend/src/components/ChatInterface.jsx:19-46 | typing a non-blank question and submitting it sends the trimmed question then the reply, and asks the trimmed question about the panel's document |
| `Wiring.OpenDocument` | frontend/src/App.jsx:76 | a dropped PDF whose two calls succeed reaches `handleUploadSuccess` through the callback and yields the create transition of the empty store |
| `Wiring.UploadThenAsk` | frontend/src/App.jsx:76-87 | from an empty page, a successful upload and then a question leave one active session whose transcript is the greeting, the trimmed question and the reply |

## Left out

- Everything under `backend/`: PDF parsing, embeddings, retrieval, LLM calls and the HTTP endpoints. They run on the server, and the frontend sees only their outcomes.
- `frontend/src/services/api.js` (the axios wrappers): each call is modelled only as its settled outcome, success with data or failure.
- `frontend/src/components/Sidebar.jsx`: rendering only. The model assumes a switch names a listed session, because the sidebar only offers those. Its message count `messages.length - 1` is not modelled.
- Toasts, `console.error`, scroll-to-bottom, the drop zone's click-to-browse, and all markup and styling: presentation only.
- React's asynchronous interleaving and stale closures. Each handler is one sequential step with its remote outcomes given up front. So a reply that arrives after the user has switched sessions is not modelled.
- AppStore.App.HandleUploadSuccess: the id comes from `Date.now()`, which does not guarantee distinct ids. The method takes the clock reading as a parameter and promises the invariant only when that reading is fresh.
- Chat.ChatInterface.HandleSubmit: `answer` and `response` are modelled as optional strings. A truthy non-string value (a number, an object) would become the message content in JavaScript; the model does not cover that. `JSON.stringify(data)` is a given field of the body, not computed.
- Upload.FileUpload.HandleFile: a `pdf_id` missing from the upload response (`undefined`) is not modelled; a successful upload always carries an id.

=== FILE: app_store.dfy ===
/**
 * The session store of the top-level component: an ordered list of
 * sessions (newest first) and a nullable pointer to the active one.
 * Each handler's new value is given as a pure transition on `Store`;
 * the class `App` holds the two state fields and its handlers overwrite
 * them with those values.
 */
module AppStore {
  import opened Optional
  import opened Text
  import opened Sessions

  datatype Store = Store(sessions: seq<Session>, activeSessionId: Option<string>)

  /** `useState([])` and `useState(null)`. */
  const Initial := Store([], None)

  /**
   * The store invariant: session ids are pairwise distinct, and a set
   * active pointer names a session that exists.
   */
  ghost predicate Valid(st: Store) {
    UniqueIds(st.sessions)
    && (st.activeSessionId.Some? ==> HasId(st.sessions, st.activeSessionId.value))
  }

  /** `sessions.find(s => s.id === activeSessionId)`: the first listed session carrying the active id, if any. */
  function ActiveSession(st: Store): (r: Option<Session>)
    ensures r.Some? <==> st.activeSessionId.Some? && HasId(st.sessions, st.activeSessionId.value)
    ensures r.Some? ==> r.value in st.sessions && st.activeSessionId == Some(r.value.id)
    ensures r.Some? ==> exists i :: IsFirstWithId(st.sessions, st.activeSessionId.value, i) && r.value == st.sessions[i]
  {
    match st.activeSessionId
    case None => None
    case Some(id) =>
      var r := Find(st.sessions, id);
      assert r.Some? ==> r.value in st.sessions by {
        if r.Some? {
          var i :| IsFirstWithId(st.sessions, id, i) && r.value == st.sessions[i];
        }
      }
      r
  }

  /**
   * `handleUploadSuccess(pdfId, fileName)` with the clock reading `id`:
   * the new session goes to the front, the old ones follow in their old
   * order, and it becomes the session `find` returns as active.
   */
  function AfterUpload(st: Store, id: string, pdfId: string, fileName: string): (r: Store)
    ensures |r.sessions| == |st.sessions| + 1
    ensures r.sessions[0] == NewSession(id, pdfId, fileName) && r.sessions[1..] == st.sessions
    ensures r.activeSessionId == Some(id)
    ensures ActiveSession(r) == Some(r.sessions[0])
  {
    var r := Store([NewSession(id, pdfId, fileName)] + st.sessions, Some(id));
    assert IsFirstWithId(r.sessions, id, 0);
    r
  }

  /**
   * `handleSendMessage(m)`: nothing happens without a truthy active id;
   * otherwise only the sessions carrying that id change, by gaining `m`
   * at the end of their transcript; list length, order and the pointer
   * stay as they were.
   */
  function AfterSend(st: Store, m: Message): (r: Store)
    ensures !IsTruthy(st.activeSessionId) ==> r == st
    ensures r.activeSessionId == st.activeSessionId && |r.sessions| == |st.sessions|
    ensures IsTruthy(st.activeSessionId) ==>
              forall i :: 0 <= i < |st.sessions| ==>
                r.sessions[i] == if st.sessions[i].id == st.activeSessionId.value
                                 then WithMessage(st.sessions[i], m) else st.sessions[i]
  {
    if !IsTruthy(st.activeSessionId) then st
    else st.(sessions := AppendWhere(st.sessions, st.activeSessionId.value, m))
  }

  /**
   * `handleDeleteSession(id)`: every session with that id is gone, every
   * other one survives unchanged, and the pointer is cleared exactly when
   * it named the deleted id.
   */
  function AfterDelete(st: Store, id: string): (r: Store)
    ensures r.sessions == RemoveId(st.sessions, id)
    ensures forall s :: s in r.sessions <==> s in st.sessions && s.id != id
    ensures !HasId(r.sessions, id)
    ensures r.activeSessionId == if st.activeSessionId == Some(id) then None else st.activeSessionId
  {
    var sessions := RemoveId(st.sessions, id);
    Store(sessions, if st.activeSessionId == Some(id) then None else st.activeSessionId)
  }

  /** `onSwitchSession(id)` and `onNewChat()` overwrite the pointer and nothing else. */
  function AfterSwitch(st: Store, id: Option<string>): (r: Store)
    ensures r.sessions == st.sessions && r.activeSessionId == id
  {
    st.(activeSessionId := id)
  }

  /** A user action on the store, with the clock reading for an upload. */
  datatype Action =
    | UploadSuccess(id: string, pdfId: string, fileName: string)
    | SendMessage(message: Message)
    | DeleteSession(sessionId: string)
    | SwitchSession(target: string)
    | NewChat

  function Apply(st: Store, a: Action): Store {
    match a
    case UploadSuccess(id, pdfId, fileName) => AfterUpload(st, id, pdfId, fileName)
    case SendMessage(m) => AfterSend(st, m)
    case DeleteSession(id) => AfterDelete(st, id)
    case SwitchSession(id) => AfterSwitch(st, Some(id))
    case NewChat => AfterSwitch(st, None)
  }

  function Run(st: Store, actions: seq<Action>): Store
    decreases |actions|
  {
    if actions == [] then st else Run(Apply(st, actions[0]), actions[1..])
  }

  /**
   * What the environment must guarantee for an action: the clock reading
   * of an upload is not already an id in the list, and the sidebar only
   * switches to a listed session.
   */
  predicate Admissible(st: Store, a: Action) {
    match a
    case UploadSuccess(id, _, _) => !HasId(st.sessions, id)
    case SwitchSession(id) => HasId(st.sessions, id)
    case _ => true
  }

  predicate AllAdmissible(st: Store, actions: seq<Action>)
    decreases |actions|
  {
    actions == [] || (Admissible(st, actions[0]) && AllAdmissible(Apply(st, actions[0]), actions[1..]))
  }

  lemma UploadKeepsValid(st: Store, id: string, pdfId: string, fileName: string)
    requires Valid(st) && !HasId(st.sessions, id)
    ensures Valid(AfterUpload(st, id, pdfId, fileName))
  {
    var r := AfterUpload(st, id, pdfId, fileName);
    forall i, j | 0 <= i < j < |r.sessions| ensures r.sessions[i].id != r.sessions[j].id {
      assert r.sessions[j] == st.sessions[j - 1];
      if i > 0 {
        assert r.sessions[i] == st.sessions[i - 1];
      }
    }
    assert r.sessions[0].id == id;
  }

  lemma SendKeepsValid(st: Store, m: Message)
    requires Valid(st)
    ensures Valid(AfterSend(st, m))
  {
    if IsTruthy(st.activeSessionId) {
      AppendWhereKeepsIds(st.sessions, st.activeSessionId.value, m);
    }
  }

  lemma DeleteKeepsValid(st: Store, id: string)
    requires Valid(st)
    ensures Valid(AfterDelete(st, id))
  {
    var r := AfterDelete(st, id);
    RemoveIdKeepsUnique(st.sessions, id);
    if r.activeSessionId.Some? {
      var a := r.activeSessionId.value;
      var i :| 0 <= i < |st.sessions| && st.sessions[i].id == a;
      assert st.sessions[i] in r.sessions;
      var k :| 0 <= k < |r.sessions| && r.sessions[k] == st.sessions[i];
    }
  }

  /** Every admissible action keeps the store invariant. */
  lemma ApplyKeepsValid(st: Store, a: Action)
    requires Valid(st) && Admissible(st, a)
    ensures Valid(Apply(st, a))
  {
    match a
    case UploadSuccess(id, pdfId, fileName) => UploadKeepsValid(st, id, pdfId, fileName);
    case SendMessage(m) => SendKeepsValid(st, m);
    case DeleteSession(id) => DeleteKeepsValid(st, id);
    case SwitchSession(_) =>
    case NewChat =>
  }

  /**
   * Over any sequence of uploads, messages, deletions and switches in
   * which every upload's clock reading is fresh, ids stay pairwise
   * distinct and the active pointer never dangles.
   */
  lemma {:induction false} RunKeepsValid(st: Store, actions: seq<Action>)
    requires Valid(st) && AllAdmissible(st, actions)
    ensures Valid(Run(st, actions))
    decreases |actions|
  {
    if actions != [] {
      ApplyKeepsValid(st, actions[0]);
      RunKeepsValid(Apply(st, actions[0]), actions[1..]);
    }
  }

  /**
   * In a valid store a set pointer is found, and the session `find`
   * returns is the only one carrying that id.
   */
  lemma ActiveIsUniqueMatch(st: Store)
    requires Valid(st) && st.activeSessionId.Some?
    ensures ActiveSession(st).Some?
    ensures forall i :: 0 <= i < |st.sessions| && st.sessions[i].id == st.activeSessionId.value ==>
              ActiveSession(st) == Some(st.sessions[i])
  {
    forall i | 0 <= i < |st.sessions| && st.sessions[i].id == st.activeSessionId.value
      ensures ActiveSession(st) == Some(st.sessions[i])
    {
      FindUnique(st.sessions, i);
    }
  }

  /**
   * Sending to a valid store with a truthy pointer extends the active
   * session's transcript by exactly `m` and changes no other session.
   */
  lemma SendExtendsActiveOnly(st: Store, m: Message)
    requires Valid(st) && IsTruthy(st.activeSessionId)
    ensures ActiveSession(st).Some? && ActiveSession(AfterSend(st, m)).Some?
    ensures ActiveSession(AfterSend(st, m)).value == WithMessage(ActiveSession(st).value, m)
    ensures forall j :: 0 <= j < |st.sessions| && st.sessions[j] != ActiveSession(st).value ==>
              AfterSend(st, m).sessions[j] == st.sessions[j]
  {
    var i := ActiveIndex(st);
    AppendWhereFind(st.sessions, i, m);
    SendOthersUnchanged(st, m, i);
  }

  /** Sessions other than the one at index `i`, which carries the active id, are left as they were. */
  lemma SendOthersUnchanged(st: Store, m: Message, i: int)
    requires UniqueIds(st.sessions) && IsTruthy(st.activeSessionId)
    requires 0 <= i < |st.sessions| && st.sessions[i].id == st.activeSessionId.value
    ensures forall j :: 0 <= j < |st.sessions| && st.sessions[j] != st.sessions[i] ==>
              AfterSend(st, m).sessions[j] == st.sessions[j]
  {
    forall j | 0 <= j < |st.sessions| && st.sessions[j] != st.sessions[i]
      ensures AfterSend(st, m).sessions[j] == st.sessions[j]
    {
      assert st.sessions[j].id != st.activeSessionId.value;
    }
  }

  /** Under the invariant, the active session sits at one index of the list. */
  lemma ActiveIndex(st: Store) returns (i: int)
    requires Valid(st) && st.activeSessionId.Some?
    ensures 0 <= i < |st.sessions| && st.sessions[i].id == st.activeSessionId.value
    ensures ActiveSession(st) == Some(st.sessions[i])
  {
    i :| 0 <= i < |st.sessions| && st.sessions[i].id == st.activeSessionId.value;
    FindUnique(st.sessions, i);
  }

  /** Every message in the order given, each through `handleSendMessage`. */
  function SendAll(st: Store, ms: seq<Message>): Store
    decreases |ms|
  {
    if ms == [] then st else SendAll(AfterSend(st, ms[0]), ms[1..])
  }

  /**
   * Successive sends land in the active transcript in the order they were
   * made, and nowhere else.
   */
  lemma {:induction false} SendAllAppendsInOrder(st: Store, ms: seq<Message>)
    requires Valid(st) && IsTruthy(st.activeSessionId)
    ensures Valid(SendAll(st, ms)) && SendAll(st, ms).activeSessionId == st.activeSessionId
    ensures ActiveSession(st).Some? && ActiveSession(SendAll(st, ms)).Some?
    ensures ActiveSession(SendAll(st, ms)).value.messages == ActiveSession(st).value.messages + ms
    decreases |ms|
  {
    if ms == [] {
      assert ActiveSession(st).value.messages + ms == ActiveSession(st).value.messages;
    } else {
      var next := AfterSend(st, ms[0]);
      var before := ActiveSession(st).value.messages;
      SendStep(st, ms[0]);
      assert SendAll(st, ms) == SendAll(next, ms[1..]);
      SendAllAppendsInOrder(next, ms[1..]);
      ConcatHead(before, ms);
    }
  }

  /** Peeling the first element off the appended sequence. */
  lemma ConcatHead<T>(before: seq<T>, ms: seq<T>)
    requires ms != []
    ensures before + ms == (before + [ms[0]]) + ms[1..]
  {
    assert ms == [ms[0]] + ms[1..];
  }

  /** One send keeps the invariant and the pointer, and extends the active transcript by one message. */
  lemma SendStep(st: Store, m: Message)
    requires Valid(st) && IsTruthy(st.activeSessionId)
    ensures Valid(AfterSend(st, m)) && AfterSend(st, m).activeSessionId == st.activeSessionId
    ensures ActiveSession(st).Some? && ActiveSession(AfterSend(st, m)).Some?
    ensures ActiveSession(AfterSend(st, m)).value.messages == ActiveSession(st).value.messages + [m]
  {
    SendExtendsActiveOnly(st, m);
    SendKeepsValid(st, m);
  }

  /** Sends never add, remove or reorder sessions, touch the pointer, or change anything but transcripts. */
  lemma {:induction false} SendAllKeepsIds(st: Store, ms: seq<Message>)
    ensures |SendAll(st, ms).sessions| == |st.sessions|
    ensures SendAll(st, ms).activeSessionId == st.activeSessionId
    ensures forall i :: 0 <= i < |st.sessions| ==>
              SendAll(st, ms).sessions[i].(messages := st.sessions[i].messages) == st.sessions[i]
    decreases |ms|
  {
    if ms != [] {
      SendAllKeepsIds(AfterSend(st, ms[0]), ms[1..]);
    }
  }

  /** A message for a deleted session is a safe no-op: `map` finds nothing to change. */
  lemma AppendAfterDeleteIsNoop(st: Store, id: string, m: Message)
    ensures AppendWhere(AfterDelete(st, id).sessions, id, m) == AfterDelete(st, id).sessions
  {
    AppendWhereAbsent(AfterDelete(st, id).sessions, id, m);
  }

  /** Deleting the active session sends the UI back to the upload view, after which sends do nothing. */
  lemma DeleteActiveThenSendIsNoop(st: Store, m: Message)
    requires st.activeSessionId.Some?
    ensures var r := AfterDelete(st, st.activeSessionId.value); r.activeSessionId == None && AfterSend(r, m) == r
  {
  }

  /**
   * Without a fresh clock reading the invariant breaks: two uploads with
   * the same reading leave two sessions with one id, and a later send
   * appends to both of them.
   */
  lemma SameClockReadingAppendsToBoth(id: string, m: Message)
    requires id != ""
    ensures var st := AfterUpload(AfterUpload(Initial, id, "p1", "a.pdf"), id, "p2", "b.pdf");
            !Valid(st)
            && AfterSend(st, m).sessions[0].messages == st.sessions[0].messages + [m]
            && AfterSend(st, m).sessions[1].messages == st.sessions[1].messages + [m]
  {
    var st := AfterUpload(AfterUpload(Initial, id, "p1", "a.pdf"), id, "p2", "b.pdf");
    assert st.sessions[0].id == st.sessions[1].id;
  }

  /**
   * The component holding the store: `sessions` and `activeSessionId`, each
   * handler overwriting them with the value the matching transition gives.
   */
  class App {
    var sessions: seq<Session>
    var activeSessionId: Option<string>

    function State(): Store
      reads this
    {
      Store(sessions, activeSessionId)
    }

    constructor ()
      ensures State() == Initial
    {
      sessions := [];
      activeSessionId := None;
    }

    /** `handleUploadSuccess`; `now` is the clock reading that becomes the id. */
    method HandleUploadSuccess(now: string, pdfId: string, fileName: string)
      modifies this
      ensures State() == AfterUpload(old(State()), now, pdfId, fileName)
      ensures old(Valid(State())) && !old(HasId(sessions, now)) ==> Valid(State())
    {
      var newSession := NewSession(now, pdfId, fileName);
      if Valid(State()) && !HasId(sessions, now) {
        UploadKeepsValid(State(), now, pdfId, fileName);
      }
      sessions := [newSession] + sessions;
      activeSessionId := Some(now);
    }

    /** `handleSendMessage`. */
    method HandleSendMessage(message: Message)
      modifies this
      ensures State() == AfterSend(old(State()), message)
      ensures old(Valid(State())) ==> Valid(State())
    {
      if Valid(State()) {
        SendKeepsValid(State(), message);
      }
      if !IsTruthy(activeSessionId) {
        return;
      }
      sessions := AppendWhere(sessions, activeSessionId.value, message);
    }

    /** `handleDeleteSession`. */
    method HandleDeleteSession(sessionId: string)
      modifies this
      ensures State() == AfterDelete(old(State()), sessionId)
      ensures old(Valid(State())) ==> Valid(State())
    {
      if Valid(State()) {
        DeleteKeepsValid(State(), sessionId);
      }
      sessions := RemoveId(sessions, sessionId);
      if activeSessionId == Some(sessionId) {
        activeSessionId := None;
      }
    }

    /** `onSwitchSession`, wired straight to the pointer's setter. */
    method SwitchSession(sessionId: string)
      modifies this
      ensures State() == AfterSwitch(old(State()), Some(sessionId))
      ensures old(Valid(State())) && old(HasId(sessions, sessionId)) ==> Valid(State())
    {
      activeSessionId := Some(sessionId);
    }

    /** `onNewChat`: back to the upload view. */
    method NewChat()
      modifies this
      ensures State() == AfterSwitch(old(State()), None)
      ensures old(Valid(State())) ==> Valid(State())
    {
      activeSessionId := None;
    }
  }
}

=== FILE: chat.dfy ===
/**
 * The chat panel: an input buffer `query`, a `loading` flag, and the
 * submit handler that sends the trimmed question, appends the user's
 * message before the reply arrives, then appends the answer or a fixed
 * error message.
 */
module Chat {
  import opened Optional
  import opened Text
  import opened Sessions

  /**
   * A `/chat` reply reduced to what the handler reads: the `answer` and
   * `response` fields and the body's own `JSON.stringify` text.
   */
  datatype ResponseBody = ResponseBody(answer: Option<string>, response: Option<string>, json: string)

  /** How `sendQuery` settles: resolved with a body, or rejected. */
  datatype QueryOutcome = Answered(data: ResponseBody) | QueryFailed

  const ErrorReply := "Sorry, I encountered an error responding to that."

  /**
   * `data.answer || data.response || JSON.stringify(data)`: a truthy
   * `answer` wins; otherwise the text is a truthy `response` or the
   * serialised body, and it is empty only when all three are.
   */
  function AnswerText(data: ResponseBody): (r: string)
    ensures IsTruthy(data.answer) ==> r == data.answer.value
    ensures !IsTruthy(data.answer) && IsTruthy(data.response) ==> r == data.response.value
    ensures !IsTruthy(data.answer) && !IsTruthy(data.response) ==> r == data.json
    ensures r == data.json || (IsTruthy(Some(r)) && (data.answer == Some(r) || data.response == Some(r)))
    ensures r == "" <==> !IsTruthy(data.answer) && !IsTruthy(data.response) && data.json == ""
  {
    if IsTruthy(data.answer) then data.answer.value
    else if IsTruthy(data.response) then data.response.value
    else data.json
  }

  /**
   * The second message a submission sends: an `error` message exactly
   * when the call failed, and then with the fixed text; otherwise an
   * `ai` message carrying the answer text.
   */
  function Reply(outcome: QueryOutcome): (r: Message)
    ensures r.kind == Error <==> outcome.QueryFailed?
    ensures outcome.QueryFailed? ==> r.content == ErrorReply
    ensures outcome.Answered? ==> r.kind == Ai && r.content == AnswerText(outcome.data)
  {
    match outcome
    case Answered(data) => Message(Ai, AnswerText(data))
    case QueryFailed => Message(Error, ErrorReply)
  }

  /**
   * The reply is never blank when the call failed or the body serialises
   * to some text, and a truthy `answer` is shown as it is.
   */
  lemma ReplyFallback(outcome: QueryOutcome)
    ensures outcome.QueryFailed? || outcome.data.json != "" ==> Reply(outcome).content != ""
    ensures outcome.Answered? && IsTruthy(outcome.data.answer) ==> Reply(outcome).content == outcome.data.answer.value
  {
  }

  /**
   * What leaves the component, in order: each `onSendMessage` call, and
   * each `sendQuery` call together with the input buffer and the loading
   * flag as they stand when it is made.
   */
  datatype ChatEffect =
    | SentMessage(message: Message)
    | AskedQuestion(question: string, pdfId: string, queryThen: string, loadingThen: bool)

  /** The messages handed to `onSendMessage`, in order. */
  function SentMessages(effects: seq<ChatEffect>): seq<Message> {
    if effects == [] then []
    else if effects[0].SentMessage? then [effects[0].message] + SentMessages(effects[1..])
    else SentMessages(effects[1..])
  }

  lemma {:induction false} SentMessagesConcat(a: seq<ChatEffect>, b: seq<ChatEffect>)
    ensures SentMessages(a + b) == SentMessages(a) + SentMessages(b)
  {
    if a == [] {
      assert a + b == b;
    } else {
      assert (a + b)[1..] == a[1..] + b;
      SentMessagesConcat(a[1..], b);
    }
  }

  /** Three single appends in a row add the three elements in order. */
  lemma AppendThree<T>(a: seq<T>, x: T, y: T, z: T)
    ensures a + [x] + [y] + [z] == a + [x, y, z]
  {
    assert [x] + [y] + [z] == [x, y, z];
  }

  /** A submit's three effects add exactly the question and the reply to the transcript. */
  lemma SubmitSendsTwo(before: seq<ChatEffect>, question: Message, asked: ChatEffect, reply: Message)
    requires !asked.SentMessage?
    ensures SentMessages(before + [SentMessage(question), asked, SentMessage(reply)])
            == SentMessages(before) + [question, reply]
  {
    var added := [SentMessage(question), asked, SentMessage(reply)];
    SentMessagesConcat(before, added);
    assert added[1..] == [asked, SentMessage(reply)];
    assert added[1..][1..] == [SentMessage(reply)];
    assert SentMessages([SentMessage(reply)]) == [reply] by {
      assert [SentMessage(reply)][1..] == [];
    }
  }

  /**
   * The submit button is enabled exactly when the input holds some
   * non-whitespace character and no answer is pending.
   */
  function SubmitEnabled(query: string, loading: bool): (r: bool)
    ensures r <==> !loading && exists i :: 0 <= i < |query| && !IsWhitespace(query[i])
  {
    !(Trim(query) == "" || loading)
  }

  class ChatInterface {
    /** The prop naming the document the questions are about. */
    const pdfId: string
    var query: string
    var loading: bool
    var effects: seq<ChatEffect>

    constructor (pdfId: string)
      ensures this.pdfId == pdfId && query == "" && !loading && effects == []
    {
      this.pdfId := pdfId;
      query := "";
      loading := false;
      effects := [];
    }

    /** The input's `onChange`: the buffer follows what is typed. */
    method OnInputChange(value: string)
      modifies this
      ensures query == value && loading == old(loading) && effects == old(effects)
    {
      query := value;
    }

    /**
     * `handleSubmit`, with the settled `sendQuery` call as `outcome`. A
     * blank input changes nothing. Otherwise: the trimmed text is sent as
     * a `user` message, the buffer is cleared and `loading` set before the
     * question (that same text) goes out, and then exactly one more message
     * follows: the answer with its fallbacks, or the fixed error text;
     * `loading` is false at the end either way.
     */
    method HandleSubmit(outcome: QueryOutcome)
      modifies this
      ensures AllWhitespace(old(query)) ==>
                query == old(query) && loading == old(loading) && effects == old(effects)
      ensures !AllWhitespace(old(query)) ==>
                query == "" && !loading
                && effects == old(effects) +
                     [SentMessage(Message(User, Trim(old(query)))),
                      AskedQuestion(Trim(old(query)), pdfId, "", true),
                      SentMessage(Reply(outcome))]
      ensures !AllWhitespace(old(query)) ==>
                SentMessages(effects) == SentMessages(old(effects)) + [Message(User, Trim(old(query))), Reply(outcome)]
    {
      var userMessage := Trim(query);
      ghost var blank := AllWhitespace(query);
      assert blank <==> userMessage == "";
      if userMessage == "" {
        return;
      }
      var trace := effects;
      trace := trace + [SentMessage(Message(User, userMessage))];
      query := "";
      loading := true;
      var asked := AskedQuestion(userMessage, pdfId, query, loading);
      trace := trace + [asked];
      var reply := Reply(outcome);
      trace := trace + [SentMessage(reply)];
      AppendThree(effects, SentMessage(Message(User, userMessage)), asked, SentMessage(reply));
      SubmitSendsTwo(effects, Message(User, userMessage), asked, reply);
      effects := trace;
      loading := false;
    }
  }
}

=== FILE: optional.dfy ===
/** A JavaScript value that may be absent (`null` or `undefined`). */
module Optional {
  datatype Option<+T> = None | Some(value: T)
}

=== FILE: sessions.dfy ===
/**
 * Chat sessions and the list operations the store computes its new
 * values with: `map` (append to the matching session), `filter` (drop a
 * session) and `find` (the session with a given id), written as the
 * recursive list functions they are.
 */
module Sessions {
  import opened Optional
  import opened Text

  /** The `type` of a transcript entry: `'user'`, `'ai'` or `'error'`. */
  datatype MessageType = User | Ai | Error

  datatype Message = Message(kind: MessageType, content: string)

  /** One uploaded document and its transcript; `id` comes from the clock at creation. */
  datatype Session = Session(id: string, pdfId: string, fileName: string, messages: seq<Message>)

  /** The first transcript entry of a new session. */
  function Greeting(fileName: string): (g: string)
    ensures Contains(g, fileName)
  {
    var g := "Document \"" + fileName + "\" processed. Ask me anything about it!";
    assert OccursAt(fileName, g, 10);
    g
  }

  /** The session `handleUploadSuccess` builds: one `ai` message that names the file. */
  function NewSession(id: string, pdfId: string, fileName: string): (s: Session)
    ensures s.id == id && s.pdfId == pdfId && s.fileName == fileName
    ensures |s.messages| == 1 && s.messages[0].kind == Ai
    ensures Contains(s.messages[0].content, fileName)
  {
    Session(id, pdfId, fileName, [Message(Ai, Greeting(fileName))])
  }

  predicate HasId(sessions: seq<Session>, id: string) {
    exists i :: 0 <= i < |sessions| && sessions[i].id == id
  }

  predicate UniqueIds(sessions: seq<Session>) {
    forall i, j :: 0 <= i < j < |sessions| ==> sessions[i].id != sessions[j].id
  }

  /** `session` with `m` added at the end of its transcript. */
  function WithMessage(session: Session, m: Message): Session {
    session.(messages := session.messages + [m])
  }

  /**
   * `sessions.map(s => s.id === id ? {...s, messages: [...s.messages, m]} : s)`:
   * every session with that id gets `m` at the end of its transcript and
   * every other session is left as it was, in the same positions.
   */
  function AppendWhere(sessions: seq<Session>, id: string, m: Message): (r: seq<Session>)
    ensures |r| == |sessions|
    ensures forall i :: 0 <= i < |r| && sessions[i].id == id ==> r[i] == WithMessage(sessions[i], m)
    ensures forall i :: 0 <= i < |r| && sessions[i].id != id ==> r[i] == sessions[i]
  {
    if sessions == [] then []
    else
      var head := if sessions[0].id == id then WithMessage(sessions[0], m) else sessions[0];
      [head] + AppendWhere(sessions[1..], id, m)
  }

  /** Appending never changes any session's id. */
  lemma AppendWhereKeepsIds(sessions: seq<Session>, id: string, m: Message)
    ensures forall i :: 0 <= i < |sessions| ==> AppendWhere(sessions, id, m)[i].id == sessions[i].id
    ensures UniqueIds(sessions) ==> UniqueIds(AppendWhere(sessions, id, m))
    ensures forall x :: HasId(AppendWhere(sessions, id, m), x) <==> HasId(sessions, x)
  {
    var r := AppendWhere(sessions, id, m);
    forall x | HasId(sessions, x) ensures HasId(r, x) {
      var i :| 0 <= i < |sessions| && sessions[i].id == x;
      assert r[i].id == x;
    }
  }

  /** With distinct ids, `find` on the updated list returns the one session that gained the message. */
  lemma AppendWhereFind(sessions: seq<Session>, i: int, m: Message)
    requires UniqueIds(sessions) && 0 <= i < |sessions|
    ensures Find(AppendWhere(sessions, sessions[i].id, m), sessions[i].id) == Some(WithMessage(sessions[i], m))
  {
    var id := sessions[i].id;
    var r := AppendWhere(sessions, id, m);
    AppendWhereKeepsIds(sessions, id, m);
    assert r[i] == WithMessage(sessions[i], m);
    FindUnique(r, i);
  }

  /** When no session carries the id, `map` finds no match and the list is unchanged. */
  lemma AppendWhereAbsent(sessions: seq<Session>, id: string, m: Message)
    requires !HasId(sessions, id)
    ensures AppendWhere(sessions, id, m) == sessions
  {
    var r := AppendWhere(sessions, id, m);
    forall i | 0 <= i < |r| ensures r[i] == sessions[i] {
      assert sessions[i].id != id;
    }
  }

  /**
   * `sessions.filter(s => s.id !== id)`: exactly the sessions with another
   * id survive, unchanged; when none carries the id nothing is removed.
   */
  function RemoveId(sessions: seq<Session>, id: string): (r: seq<Session>)
    ensures |r| <= |sessions|
    ensures forall s :: s in r <==> s in sessions && s.id != id
    ensures !HasId(r, id)
    ensures !HasId(sessions, id) ==> r == sessions
  {
    if sessions == [] then []
    else
      var rest := RemoveId(sessions[1..], id);
      assert forall s :: s in sessions <==> s == sessions[0] || s in sessions[1..];
      assert !HasId(sessions, id) ==> !HasId(sessions[1..], id) by {
        if HasId(sessions[1..], id) {
          var i :| 0 <= i < |sessions[1..]| && sessions[1..][i].id == id;
          assert sessions[i + 1].id == id;
        }
      }
      if sessions[0].id == id then rest else [sessions[0]] + rest
  }

  /** `filter` keeps the relative order: it distributes over concatenation. */
  lemma {:induction false} RemoveIdConcat(a: seq<Session>, b: seq<Session>, id: string)
    ensures RemoveId(a + b, id) == RemoveId(a, id) + RemoveId(b, id)
  {
    if a != [] {
      assert (a + b)[1..] == a[1..] + b;
      RemoveIdConcat(a[1..], b, id);
    } else {
      assert a + b == b;
    }
  }

  /** Distinct ids, read from the head: the head's id is not in the tail, and the tail's ids are distinct. */
  lemma UniqueIdsCons(sessions: seq<Session>)
    requires sessions != []
    ensures UniqueIds(sessions) <==> !HasId(sessions[1..], sessions[0].id) && UniqueIds(sessions[1..])
  {
    var tail := sessions[1..];
    if UniqueIds(sessions) {
      forall k | 0 <= k < |tail| ensures tail[k].id != sessions[0].id {
        assert tail[k] == sessions[k + 1];
      }
      forall i, j | 0 <= i < j < |tail| ensures tail[i].id != tail[j].id {
        assert tail[i] == sessions[i + 1] && tail[j] == sessions[j + 1];
      }
    }
    if !HasId(tail, sessions[0].id) && UniqueIds(tail) {
      forall i, j | 0 <= i < j < |sessions| ensures sessions[i].id != sessions[j].id {
        assert sessions[j] == tail[j - 1];
        if i > 0 {
          assert sessions[i] == tail[i - 1];
        }
      }
    }
  }

  /** A session that survives a delete was there before. */
  lemma RemoveIdKeepsNoNewIds(sessions: seq<Session>, id: string, x: string)
    requires HasId(RemoveId(sessions, id), x)
    ensures HasId(sessions, x)
  {
    var r := RemoveId(sessions, id);
    var k :| 0 <= k < |r| && r[k].id == x;
    assert r[k] in sessions;
    var i :| 0 <= i < |sessions| && sessions[i] == r[k];
  }

  /** The surviving sessions still have pairwise distinct ids. */
  lemma {:induction false} RemoveIdKeepsUnique(sessions: seq<Session>, id: string)
    requires UniqueIds(sessions)
    ensures UniqueIds(RemoveId(sessions, id))
  {
    if sessions != [] {
      var tail := sessions[1..];
      UniqueIdsCons(sessions);
      RemoveIdKeepsUnique(tail, id);
      var rest := RemoveId(tail, id);
      if sessions[0].id != id {
        var r := [sessions[0]] + rest;
        assert r[1..] == rest;
        if HasId(rest, sessions[0].id) {
          RemoveIdKeepsNoNewIds(tail, id, sessions[0].id);
        }
        UniqueIdsCons(r);
      }
    }
  }

  /** With distinct ids, deleting a present id removes exactly one session. */
  lemma {:induction false} RemoveIdCount(sessions: seq<Session>, id: string)
    requires UniqueIds(sessions)
    ensures |RemoveId(sessions, id)| == if HasId(sessions, id) then |sessions| - 1 else |sessions|
  {
    if sessions != [] {
      var tail := sessions[1..];
      assert UniqueIds(tail) by {
        forall i, j | 0 <= i < j < |tail| ensures tail[i].id != tail[j].id {
          assert tail[i] == sessions[i + 1] && tail[j] == sessions[j + 1];
        }
      }
      RemoveIdCount(tail, id);
      if sessions[0].id == id {
        assert !HasId(tail, id) by {
          forall k | 0 <= k < |tail| ensures tail[k].id != id {
            assert tail[k] == sessions[k + 1];
          }
        }
      } else {
        assert HasId(sessions, id) <==> HasId(tail, id) by {
          if HasId(sessions, id) {
            var k :| 0 <= k < |sessions| && sessions[k].id == id;
            assert tail[k - 1].id == id;
          }
          if HasId(tail, id) {
            var k :| 0 <= k < |tail| && tail[k].id == id;
            assert sessions[k + 1].id == id;
          }
        }
      }
    }
  }

  /** `i` is the first position whose session carries `id`. */
  predicate IsFirstWithId(sessions: seq<Session>, id: string, i: int) {
    0 <= i < |sessions| && sessions[i].id == id
    && forall j :: 0 <= j < i ==> sessions[j].id != id
  }

  /** `sessions.find(s => s.id === id)`: the first session with that id, if any. */
  function Find(sessions: seq<Session>, id: string): (r: Option<Session>)
    ensures r.Some? <==> HasId(sessions, id)
    ensures r.Some? ==> exists i :: IsFirstWithId(sessions, id, i) && r.value == sessions[i]
  {
    if sessions == [] then None
    else if sessions[0].id == id then
      assert IsFirstWithId(sessions, id, 0);
      Some(sessions[0])
    else
      var r := Find(sessions[1..], id);
      assert HasId(sessions, id) ==> HasId(sessions[1..], id) by {
        if HasId(sessions, id) {
          var k :| 0 <= k < |sessions| && sessions[k].id == id;
          assert sessions[1..][k - 1].id == id;
        }
      }
      assert r.Some? ==> exists i :: IsFirstWithId(sessions, id, i) && r.value == sessions[i] by {
        if r.Some? {
          var k :| IsFirstWithId(sessions[1..], id, k) && r.value == sessions[1..][k];
          assert IsFirstWithId(sessions, id, k + 1);
        }
      }
      r
  }

  /** With distinct ids, `find` returns the one and only session that carries the id. */
  lemma FindUnique(sessions: seq<Session>, i: int)
    requires UniqueIds(sessions) && 0 <= i < |sessions|
    ensures Find(sessions, sessions[i].id) == Some(sessions[i])
  {
    var r := Find(sessions, sessions[i].id);
    var k :| IsFirstWithId(sessions, sessions[i].id, k) && r.value == sessions[k];
    assert k == i;
  }
}

=== FILE: text.dfy ===
/**
 * The string operations the frontend relies on: JavaScript's
 * `String.prototype.trim`, the truthiness of an optional string, and
 * "contains as a substring" (used to state what a greeting embeds).
 */
module Text {
  import opened Optional

  /** The code points `trim` strips: ECMAScript WhiteSpace and LineTerminator. */
  predicate IsWhitespace(c: char) {
    c == '\t' || c == '\U{000B}' || c == '\U{000C}' || c == ' ' || c == '\U{00A0}' || c == '\U{FEFF}'
    || c == '\U{1680}' || ('\U{2000}' <= c <= '\U{200A}') || c == '\U{202F}' || c == '\U{205F}'
    || c == '\U{3000}' || c == '\n' || c == '\r' || c == '\U{2028}' || c == '\U{2029}'
  }

  predicate AllWhitespace(s: string) {
    forall i :: 0 <= i < |s| ==> IsWhitespace(s[i])
  }

  lemma WhitespaceCons(c: char, a: string)
    requires IsWhitespace(c) && AllWhitespace(a)
    ensures AllWhitespace([c] + a)
  {
    forall i | 0 <= i < |[c] + a| ensures IsWhitespace(([c] + a)[i]) {
      if i > 0 {
        assert ([c] + a)[i] == a[i - 1];
      }
    }
  }

  lemma WhitespaceSnoc(a: string, c: char)
    requires AllWhitespace(a) && IsWhitespace(c)
    ensures AllWhitespace(a + [c])
  {
    forall i | 0 <= i < |a + [c]| ensures IsWhitespace((a + [c])[i]) {
      if i < |a| {
        assert (a + [c])[i] == a[i];
      }
    }
  }

  /** Drops the leading whitespace: what is dropped is all whitespace, what is kept does not start with it. */
  function TrimStart(s: string): (r: string)
    ensures |r| <= |s| && r == s[|s| - |r|..]
    ensures AllWhitespace(s[..|s| - |r|])
    ensures r != [] ==> !IsWhitespace(r[0])
  {
    if |s| > 0 && IsWhitespace(s[0]) then
      var t := s[1..];
      var r := TrimStart(t);
      assert s[|s| - |r|..] == t[|t| - |r|..];
      assert s[..|s| - |r|] == [s[0]] + t[..|t| - |r|];
      WhitespaceCons(s[0], t[..|t| - |r|]);
      r
    else
      assert s[..0] == [];
      s
  }

  /** Drops the trailing whitespace: what is dropped is all whitespace, what is kept does not end with it. */
  function TrimEnd(s: string): (r: string)
    ensures |r| <= |s| && r == s[..|r|]
    ensures AllWhitespace(s[|r|..])
    ensures r != [] ==> !IsWhitespace(r[|r| - 1])
  {
    if |s| > 0 && IsWhitespace(s[|s| - 1]) then
      var t := s[..|s| - 1];
      var r := TrimEnd(t);
      assert s[..|r|] == t[..|r|];
      assert s[|r|..] == t[|r|..] + [s[|s| - 1]];
      WhitespaceSnoc(t[|r|..], s[|s| - 1]);
      r
    else
      assert s[|s|..] == [];
      s
  }

  /** The text between the leading and the trailing whitespace is empty exactly when all of it is whitespace. */
  lemma TrimmedBlank(s: string)
    ensures TrimEnd(TrimStart(s)) == [] <==> AllWhitespace(s)
  {
    var t := TrimStart(s);
    var k := |s| - |t|;
    var r := TrimEnd(t);
    assert t == s[k..];
    if AllWhitespace(s) {
      assert AllWhitespace(t) by {
        forall i | 0 <= i < |t| ensures IsWhitespace(t[i]) {
          assert t[i] == s[k + i];
        }
      }
      assert t == [];
    }
    if r == [] {
      assert t[|r|..] == t;
      forall i | 0 <= i < |s| ensures IsWhitespace(s[i]) {
        if i < k {
          assert s[i] == s[..k][i];
        } else {
          assert s[i] == t[i - k];
        }
      }
    }
  }

  /** `r` is the part of `s` at offset `a`, with only whitespace before and after it. */
  predicate WindowAt(s: string, r: string, a: nat) {
    a + |r| <= |s| && r == s[a..a + |r|] && AllWhitespace(s[..a]) && AllWhitespace(s[a + |r|..])
  }

  /**
   * Dropping an all-whitespace prefix of `s` to get `t`, then an
   * all-whitespace suffix of `t` to get `r`, leaves `r` as a window of `s`.
   */
  lemma TrimmedWindow(s: string, t: string, r: string)
    requires |t| <= |s| && t == s[|s| - |t|..] && AllWhitespace(s[..|s| - |t|])
    requires |r| <= |t| && r == t[..|r|] && AllWhitespace(t[|r|..])
    ensures WindowAt(s, r, |s| - |t|)
  {
    var a := |s| - |t|;
    assert s[a..a + |r|] == r;
    assert s[a + |r|..] == t[|r|..];
  }

  /** `s.trim()`: the text between the leading and the trailing whitespace. */
  function Trim(s: string): (r: string)
    ensures r == [] <==> AllWhitespace(s)
    ensures r != [] ==> !IsWhitespace(r[0]) && !IsWhitespace(r[|r| - 1])
    ensures |r| <= |s|
  {
    TrimmedBlank(s);
    TrimEnd(TrimStart(s))
  }

  /** `s.trim()` is `s` with an all-whitespace prefix and an all-whitespace suffix removed, and nothing else. */
  lemma TrimIsWindow(s: string)
    ensures exists a: nat :: WindowAt(s, Trim(s), a)
  {
    TrimmedWindow(s, TrimStart(s), Trim(s));
  }

  /** The JavaScript truthiness of a string that may be absent: `null`, `undefined` and `""` are falsy. */
  predicate IsTruthy(s: Option<string>) {
    s.Some? && s.value != ""
  }

  predicate OccursAt(needle: string, haystack: string, i: nat) {
    i + |needle| <= |haystack| && haystack[i..i + |needle|] == needle
  }

  /** `haystack` contains `needle` as a contiguous substring. */
  predicate Contains(haystack: string, needle: string) {
    exists i: nat | i <= |haystack| :: OccursAt(needle, haystack, i)
  }
}

=== FILE: upload.dfy ===
/**
 * The upload panel: a drop zone with an `isDragging` flag, and the file
 * handler that checks the media type, uploads, asks for the analysis,
 * and reports the new document upward, with an `isUploading` flag around
 * the remote calls.
 */
module Upload {
  import opened Optional

  /** A browser `File`, reduced to its `name` and its media `type`. */
  datatype File = File(name: string, mimeType: string)

  /** How `uploadPdf` settles: resolved with the server's `pdf_id`, or rejected. */
  datatype UploadOutcome = Uploaded(pdfId: string) | UploadFailed

  /** How `analyzeSections` settles. */
  datatype AnalyzeOutcome = Analyzed | AnalyzeFailed

  const PdfType := "application/pdf"

  /**
   * What leaves the component, in order: the two remote calls (each with
   * the `isUploading` flag as it stands when it is made) and the
   * `onUploadSuccess` callback.
   */
  datatype UploadEffect =
    | UploadCall(file: File, busyThen: bool)
    | AnalyzeCall(pdfId: string, busyThen: bool)
    | SuccessCallback(pdfId: string, fileName: string)

  /** The guard `!file || file.type !== 'application/pdf'`, negated. */
  predicate IsPdf(file: Option<File>) {
    file.Some? && file.value.mimeType == PdfType
  }

  /** `files[0]`: the first file of a list, `undefined` when it is empty. */
  function FirstFile(files: seq<File>): (f: Option<File>)
    ensures f.Some? <==> |files| > 0
    ensures f.Some? ==> f.value == files[0]
  {
    if |files| == 0 then None else Some(files[0])
  }

  /** How many times `onUploadSuccess` was called. */
  function Callbacks(effects: seq<UploadEffect>): nat {
    if effects == [] then 0
    else (if effects[0].SuccessCallback? then 1 else 0) + Callbacks(effects[1..])
  }

  lemma {:induction false} CallbacksConcat(a: seq<UploadEffect>, b: seq<UploadEffect>)
    ensures Callbacks(a + b) == Callbacks(a) + Callbacks(b)
  {
    if a == [] {
      assert a + b == b;
    } else {
      assert (a + b)[1..] == a[1..] + b;
      CallbacksConcat(a[1..], b);
    }
  }

  lemma CallbacksAppend(a: seq<UploadEffect>, e: UploadEffect)
    ensures Callbacks(a + [e]) == Callbacks(a) + if e.SuccessCallback? then 1 else 0
  {
    CallbacksConcat(a, [e]);
    assert [e][1..] == [];
  }

  /**
   * The effects `handleFile` produces, in order: nothing for a missing or
   * non-PDF file; otherwise the upload, then (only if it succeeded) the
   * analysis of the returned id, then (only if that succeeded too) the
   * success callback. Both calls are made while `isUploading` is set.
   */
  function HandledEffects(file: Option<File>, upload: UploadOutcome, analyze: AnalyzeOutcome): seq<UploadEffect> {
    if !IsPdf(file) then []
    else
      [UploadCall(file.value, true)] +
      match upload
      case UploadFailed => []
      case Uploaded(pdfId) =>
        [AnalyzeCall(pdfId, true)] + if analyze.Analyzed? then [SuccessCallback(pdfId, file.value.name)] else []
  }

  /**
   * A rejected file makes no call at all; an accepted one is uploaded
   * first, while busy.
   */
  lemma UploadComesFirst(file: Option<File>, upload: UploadOutcome, analyze: AnalyzeOutcome)
    ensures HandledEffects(file, upload, analyze) == [] <==> !IsPdf(file)
    ensures IsPdf(file) ==> HandledEffects(file, upload, analyze)[0] == UploadCall(file.value, true)
  {
  }

  /**
   * The analysis is requested only right after a successful upload, and
   * for the id that upload returned.
   */
  lemma AnalyzeFollowsUpload(file: Option<File>, upload: UploadOutcome, analyze: AnalyzeOutcome, k: int)
    requires 0 <= k < |HandledEffects(file, upload, analyze)|
    requires HandledEffects(file, upload, analyze)[k].AnalyzeCall?
    ensures k == 1 && upload == Uploaded(HandledEffects(file, upload, analyze)[k].pdfId)
    ensures HandledEffects(file, upload, analyze)[0].UploadCall?
    ensures HandledEffects(file, upload, analyze)[k].busyThen
  {
  }

  /**
   * `onUploadSuccess(pdf_id, file.name)` is called once when both calls
   * succeed and never otherwise; when it is called it is the last effect.
   */
  lemma CallbackIffBothSucceed(file: Option<File>, upload: UploadOutcome, analyze: AnalyzeOutcome)
    ensures Callbacks(HandledEffects(file, upload, analyze)) ==
              if IsPdf(file) && upload.Uploaded? && analyze.Analyzed? then 1 else 0
    ensures IsPdf(file) && upload.Uploaded? && analyze.Analyzed? ==>
              HandledEffects(file, upload, analyze)[2] == SuccessCallback(upload.pdfId, file.value.name)
  {
    var r := HandledEffects(file, upload, analyze);
    if IsPdf(file) {
      CallbacksConcat([r[0]], r[1..]);
      assert [r[0]] + r[1..] == r;
      assert [r[0]][1..] == [];
      if upload.Uploaded? {
        var rest := r[1..];
        CallbacksConcat([rest[0]], rest[1..]);
        assert [rest[0]] + rest[1..] == rest;
        assert [rest[0]][1..] == [];
        if analyze.Analyzed? {
          assert rest[1..] == [SuccessCallback(upload.pdfId, file.value.name)];
          assert rest[1..][1..] == [];
        }
      }
    }
  }

  class FileUpload {
    var isDragging: bool
    var isUploading: bool
    var effects: seq<UploadEffect>

    constructor ()
      ensures !isDragging && !isUploading && effects == []
    {
      isDragging := false;
      isUploading := false;
      effects := [];
    }

    /**
     * `handleFile`, with the settled remote calls as `upload` and
     * `analyze`. A missing or non-PDF file changes nothing and calls
     * nothing. A PDF is uploaded first; only after a successful upload is
     * the analysis requested, for the returned id; the callback follows
     * only when both succeed, once; `isUploading` is set during the calls
     * and cleared at the end in every outcome.
     */
    method HandleFile(file: Option<File>, upload: UploadOutcome, analyze: AnalyzeOutcome)
      modifies this
      ensures isDragging == old(isDragging)
      ensures isUploading == if IsPdf(file) then false else old(isUploading)
      ensures effects == old(effects) + HandledEffects(file, upload, analyze)
      ensures Callbacks(effects) ==
                Callbacks(old(effects)) + if IsPdf(file) && upload.Uploaded? && analyze.Analyzed? then 1 else 0
    {
      if !IsPdf(file) {
        return;
      }
      isUploading := true;
      CallbacksAppend(effects, UploadCall(file.value, isUploading));
      effects := effects + [UploadCall(file.value, isUploading)];
      match upload {
        case UploadFailed =>
        case Uploaded(pdfId) =>
          CallbacksAppend(effects, AnalyzeCall(pdfId, isUploading));
          effects := effects + [AnalyzeCall(pdfId, isUploading)];
          if analyze.Analyzed? {
            CallbacksAppend(effects, SuccessCallback(pdfId, file.value.name));
            effects := effects + [SuccessCallback(pdfId, file.value.name)];
          }
      }
      isUploading := false;
      assert effects == old(effects) + HandledEffects(file, upload, analyze);
    }

    /** `onDragOver`. */
    method OnDragOver()
      modifies this
      ensures isDragging && isUploading == old(isUploading) && effects == old(effects)
    {
      isDragging := true;
    }

    /** `onDragLeave`. */
    method OnDragLeave()
      modifies this
      ensures !isDragging && isUploading == old(isUploading) && effects == old(effects)
    {
      isDragging := false;
    }

    /** `onDrop`: the highlight goes off and only the first dropped file is handled. */
    method OnDrop(files: seq<File>, upload: UploadOutcome, analyze: AnalyzeOutcome)
      modifies this
      ensures !isDragging
      ensures isUploading == if IsPdf(FirstFile(files)) then false else old(isUploading)
      ensures effects == old(effects) + HandledEffects(FirstFile(files), upload, analyze)
    {
      isDragging := false;
      HandleFile(FirstFile(files), upload, analyze);
    }

    /** `onInputChange`: only the first chosen file is handled. */
    method OnInputChange(files: seq<File>, upload: UploadOutcome, analyze: AnalyzeOutcome)
      modifies this
      ensures isDragging == old(isDragging)
      ensures isUploading == if IsPdf(FirstFile(files)) then false else old(isUploading)
      ensures effects == old(effects) + HandledEffects(FirstFile(files), upload, analyze)
    {
      HandleFile(FirstFile(files), upload, analyze);
    }
  }
}

=== FILE: wiring.dfy ===
/**
 * The page as the top-level component wires it: the upload panel's
 * success callback is `handleUploadSuccess`, and the chat panel receives
 * the active session's `pdfId` and sends its messages through
 * `handleSendMessage`.
 */
module Wiring {
  import opened Optional
  import opened Text
  import opened Sessions
  import opened AppStore
  import opened Chat
  import opened Upload

  /**
   * The transcript the store holds after an upload into an empty store
   * followed by sends: the greeting, then the sent messages in order.
   */
  lemma UploadThenSendAll(now: string, pdfId: string, fileName: string, ms: seq<Message>, r: Store)
    requires now != "" && r == SendAll(AfterUpload(Initial, now, pdfId, fileName), ms)
    ensures |r.sessions| == 1 && r.activeSessionId == Some(now)
    ensures r.sessions[0].pdfId == pdfId && r.sessions[0].fileName == fileName
    ensures r.sessions[0].messages == [Message(Ai, Greeting(fileName))] + ms
  {
    var st := AfterUpload(Initial, now, pdfId, fileName);
    UploadKeepsValid(Initial, now, pdfId, fileName);
    SendAllAppendsInOrder(st, ms);
    SendAllKeepsIds(st, ms);
    ActiveIsUniqueMatch(r);
    assert ActiveSession(r).value == r.sessions[0];
  }

  /**
   * A fresh chat panel for `pdfId`: typing `question` and submitting it
   * sends the trimmed question and then the reply, nothing else, and asks
   * the trimmed question about `pdfId`.
   */
  method TypeAndSubmit(pdfId: string, question: string, outcome: QueryOutcome)
    returns (sent: seq<Message>, asked: seq<ChatEffect>)
    requires !AllWhitespace(question)
    ensures sent == [Message(User, Trim(question)), Reply(outcome)]
    ensures asked == [AskedQuestion(Trim(question), pdfId, "", true)]
  {
    var chat := new ChatInterface(pdfId);
    chat.OnInputChange(question);
    chat.HandleSubmit(outcome);
    assert SentMessages([]) == [];
    sent := SentMessages(chat.effects);
    asked := [chat.effects[1]];
  }

  /**
   * A fresh page on which a PDF is dropped and both remote calls succeed:
   * the panel's one success callback, handed to `handleUploadSuccess`,
   * leaves the store as that handler makes it from the empty store.
   */
  method OpenDocument(now: string, file: File, pdfId: string) returns (app: App)
    requires file.mimeType == PdfType
    ensures fresh(app) && app.State() == AfterUpload(Initial, now, pdfId, file.name)
  {
    app := new App();
    var panel := new FileUpload();
    panel.OnDrop([file], Uploaded(pdfId), Analyzed);
    assert panel.effects == [UploadCall(file, true), AnalyzeCall(pdfId, true), SuccessCallback(pdfId, file.name)];
    var callback := panel.effects[2];
    app.HandleUploadSuccess(now, callback.pdfId, callback.fileName);
  }

  /**
   * From an empty page: a PDF whose upload and analysis both succeed,
   * then a non-blank question in the chat panel for the new session. One
   * session results, it is active, and its transcript is the greeting,
   * the trimmed question and the reply.
   */
  method UploadThenAsk(now: string, file: File, pdfId: string, question: string, outcome: QueryOutcome)
    returns (sessions: seq<Session>, active: Option<string>)
    requires now != "" && file.mimeType == PdfType && !AllWhitespace(question)
    ensures |sessions| == 1 && active == Some(now)
    ensures sessions[0].pdfId == pdfId && sessions[0].fileName == file.name
    ensures sessions[0].messages ==
              [Message(Ai, Greeting(file.name)), Message(User, Trim(question)), Reply(outcome)]
  {
    var app := OpenDocument(now, file, pdfId);
    ghost var created := app.State();
    var sent, _ := TypeAndSubmit(app.sessions[0].pdfId, question, outcome);
    app.HandleSendMessage(sent[0]);
    app.HandleSendMessage(sent[1]);
    assert app.State() == SendAll(created, sent) by {
      assert sent[1..][1..] == [];
      assert SendAll(created, sent) == SendAll(AfterSend(AfterSend(created, sent[0]), sent[1]), []);
    }
    UploadThenSendAll(now, pdfId, file.name, sent, app.State());
    sessions, active := app.sessions, app.activeSessionId;
    assert [Message(Ai, Greeting(file.name))] + sent
        == [Message(Ai, Greeting(file.name)), Message(User, Trim(question)), Reply(outcome)];
  }
}
